=== FILE: README.md ===
# DOMComponentsTracking, modelled in Dafny

`DOMComponentsTracking` (in `src/DOMComponentsTracking.js`) watches a web page
for elements marked as product or campaign components:

- `data-ddl-viewed-product`, `data-ddl-viewed-campaign`
- `data-ddl-clicked-product`, `data-ddl-clicked-campaign`
- `data-ddl-product-list-name`

It appends "Viewed" and "Clicked" events to the shared list
`window.digitalData.events`.

This project models the tracker's core in Dafny 4 and proves properties of the
model. The core is:

- the viewport rectangle (`defineDocBoundaries`);
- the visibility test (`isVisible`): a style gate, a "three quarters on
  screen" overlap test, and a walk up the parent chain from the element hit
  at the element's centre;
- one tick of view tracking (`updateDigitalDataDomComponents` then
  `trackViews`), with its per-type ledger `viewedComponentIds` of ids already
  reported;
- the click handler and the four event constructors;
- the attribute-selector helpers `getDataAttrSelector`, `findByDataAttr` and
  `findParentByDataAttr`.

## Files

- `values.dfy`, module `Values`: `Option`, and the values jQuery's `.data()`
  yields (`DataValue`), with JavaScript truthiness.
- `dom.dfy`, module `Dom`: an abstract page. It holds the elements, their
  parent links, `data-*` attributes, boxes and computed styles, the window's
  scroll position and size, and the hit test `document.elementFromPoint` as a
  function input. The module also has:
  - the ancestor chain `Up`;
  - acyclicity, as a ghost `rank` that decreases from child to parent;
  - `.closest` and `.find` on the tracker's selectors;
  - the selector string `[data-<name>]`.
- `geometry.dfy`, module `Geometry`: the rectangle `_defineDocBoundaries`
  computes, and the overlap tests `fitsVertical` and `fitsHorizontal`, in
  exact `real` arithmetic.
- `events.dfy`, module `Events`: the four event records and their fixed names
  and categories.
- `tracking.dfy`, module `Tracking`, in two parts:
  - The functions that specify the tracker:
    - `Visible` is what `isVisible` decides.
    - `Step` and `Scan` are one type's pass over its elements.
    - `ViewedEvents` and `ClickedEvent` are the records pushed.
    - The lemmas about them follow.
  - The class `DOMComponentsTracking`: the fields `docViewTop`,
    `docViewBottom`, `docViewLeft`, `docViewRight`, `viewedComponentIds` and
    `digitalDataComponents`, and methods that change them step by step. Each
    method is proved against the specification functions.

### How the code differs from its written description

The model follows the code in each of these cases:

- Re-centring reads the option `maxWebsiteWidth`
  (`src/DOMComponentsTracking.js:60`). The constructor and `initialize` only
  ever set `websiteMaxWidth` (lines 17-19 and 38-42). `Options` keeps the two
  keys apart, and only `maxWebsiteWidth` affects the rectangle.
- The ledger records ids, not elements. The lists a tick scans are the
  elements carrying `data-ddl-viewed-<type>` (lines 78-79, 247), so every
  one of them has an id. But an id may be empty or repeated, for instance
  `data-ddl-viewed-product=""` on several elements. The first visible one
  records that id and joins the batch, and every later element with the same
  id is taken as already viewed, however often it is shown
  (`RepeatedIdSkipped`). The callback itself does not skip an element
  without the attribute either: it treats `undefined` as one more id
  (line 112, `MissingIdRecorded`), but no tick reaches that case: it arises
  only for a list assigned by code outside the tracker.
- The overlap test does not check that three quarters of the element are on
  screen, as the comment at lines 187-189 says. It checks that the element's
  middle half is inside the rectangle. The two agree for an element cut off on
  at most one side (`ThreeQuartersFit`, `FitImpliesThreeQuarters`). An element
  cut off at both ends passes with less (`TallElementFits`).
- There is no check for zero or undefined dimensions. A zero-size element
  whose point lies in the rectangle passes both overlap tests (`InsideFits`
  with zero size). It then depends on the hit test like any other element.

## Model

| member | source | states |
|---|---|---|
| `Dom.ChainEnds` | src/DOMComponentsTracking.js:230-232 | on an acyclic page, the parent chain from any element runs out of elements after a bounded number of steps, so this is the measure the walk in `IsVisible` decreases |
| `Dom.GetDataAttrSelector` | src/DOMComponentsTracking.js:261-263 | the selector built for `name` has the form `[data-<name>]`: reading the attribute name back from it gives `name` |
| `Dom.SelectorInjective` | src/DOMComponentsTracking.js:261-263 | different attribute names give different selectors |
| `Dom.MatchesDataAttr` | src/DOMComponentsTracking.js:245-248 | the selector built for `name` matches exactly the elements carrying `data-<name>` |
| `Dom.Closest` | src/DOMComponentsTracking.js:257-259 | `.closest` on the selector returns nothing or an element carrying the attribute |
| `Dom.FindParentByDataAttr` | src/DOMComponentsTracking.js:257-259 | the element returned, if any, carries `data-<name>` |
| `Dom.ClosestIsNearest` | src/DOMComponentsTracking.js:257-259 | the element found is the NEAREST ancestor-or-self with the attribute: it lies `k` steps up and none of the `k` elements below it has the attribute; when nothing is found, no element on the chain has it |
| `Dom.FindAll` | src/DOMComponentsTracking.js:245-248 | `.find` keeps exactly the given elements that carry the attribute, and no more of them than there were |
| `Dom.FindAllAppend` | src/DOMComponentsTracking.js:245-248 | `.find` keeps document order: finding in two runs of elements one after the other is finding in each and concatenating |
| `Dom.FindAllOne` | src/DOMComponentsTracking.js:245-248 | a single element is found exactly when it carries the attribute; with `FindAllAppend` this pins `.find` down as an order-keeping filter |
| `Dom.FindAllNoDuplicates` | src/DOMComponentsTracking.js:245-248 | a duplicate-free input gives a duplicate-free result |
| `Dom.FindByDataAttr` | src/DOMComponentsTracking.js:245-248 | an element is found exactly when it is in the body and carries `data-<name>`; it is `FindAll` on the body, so the order and single-occurrence lemmas of `FindAll` apply to it |
| `Geometry.DocBoundaries` | src/DOMComponentsTracking.js:54-64 | the rectangle is as high as the window and starts at `scrollTop`. Without re-centring it is the window itself. With re-centring, `left == (width - max)/2 > 0` and `right - left == max`. The rectangle is left unchanged exactly when the re-centring condition fails |
| `Geometry.FitsVertical` | src/DOMComponentsTracking.js:212-215 | the vertical test passes iff `top + h/4 >= docViewTop` and `top + 3h/4 <= docViewBottom`, the body's test rewritten; what it means for the share of the element on screen is stated by `InsideFits`, `BelowFails`, `ThreeQuartersFit`, `FitImpliesThreeQuarters` and `VerticalThreshold` |
| `Geometry.FitsHorizontal` | src/DOMComponentsTracking.js:216-219 | the horizontal test passes iff `left + w/4 >= docViewLeft` and `left + 3w/4 <= docViewRight`, the body's test rewritten; its meaning is stated by `InsideFits` and `HorizontalThreshold` |
| `Geometry.InsideFits` | src/DOMComponentsTracking.js:212-219 | an element of non-negative size lying entirely inside the rectangle passes both tests |
| `Geometry.BelowFails` | src/DOMComponentsTracking.js:212-215 | an element whose top edge is below `docViewBottom` fails the vertical test |
| `Geometry.ThreeQuartersFit` | src/DOMComponentsTracking.js:212-215 | when three quarters of the element's height overlap the rectangle, the vertical test passes |
| `Geometry.FitImpliesThreeQuarters` | src/DOMComponentsTracking.js:212-215 | an element cut off on at most one side that passes the vertical test has three quarters of its height in the rectangle |
| `Geometry.TallElementFits` | src/DOMComponentsTracking.js:212-215 | a 100-high element with only 60 of its height on screen passes the vertical test, because it is cut off at both ends |
| `Geometry.VerticalThreshold` | src/DOMComponentsTracking.js:212-215 | an element cut off at the top by exactly a quarter of its height passes; moved up by any further amount, it fails |
| `Geometry.HorizontalThreshold` | src/DOMComponentsTracking.js:216-219 | an element cut off at the right by exactly a quarter of its width passes; moved right by any further amount, it fails |
| `Events.MakeListItem` | src/DOMComponentsTracking.js:114-119 | the list item carries the product id, and carries `listId` exactly when the list name read is truthy |
| `Events.ViewedProduct` | src/DOMComponentsTracking.js:149-155 | the record is named "Viewed Product", in category "Ecommerce", and carries the given `listItems` |
| `Events.ViewedCampaign` | src/DOMComponentsTracking.js:157-163 | the record is named "Viewed Campaign", in category "Promo", and carries the given `campaigns` |
| `Events.ClickedProduct` | src/DOMComponentsTracking.js:165-177 | the record is named "Clicked Product", in category "Ecommerce", and its `listItem` carries the product id, and has `listId`, with the value passed in, exactly when that value is truthy |
| `Events.ClickedCampaign` | src/DOMComponentsTracking.js:179-185 | the record is named "Clicked Campaign", in category "Promo", and carries the id itself |
| `Events.NameDeterminesPayload` | src/DOMComponentsTracking.js:149-185 | in the four record shapes, the name alone fixes the category and which payload field is present |
| `Tracking.StyleGate` | src/DOMComponentsTracking.js:207-210 | an element that is not displayed, has opacity ≤ 0, or has `visibility: hidden` is not visible, whatever its geometry |
| `Tracking.NullHitNotVisible` | src/DOMComponentsTracking.js:225-234 | when the hit test at the element's centre finds nothing, the element is not visible |
| `Tracking.WalkStopped` | src/DOMComponentsTracking.js:230-234 | when the walk stops at `el` or at the end of the element chain without meeting `el` before, its answer is exactly "`el` is the hit element or one of its ancestors" |
| `Tracking.ProductListItem` | src/DOMComponentsTracking.js:114-119 | a viewed product's list item carries its viewed id, and carries `listId` exactly when the nearest list name is truthy |
| `Tracking.IdsOfAt` | src/DOMComponentsTracking.js:121-122 | a campaign batch holds, in order, exactly one id per element added |
| `Tracking.ProductItemsAt` | src/DOMComponentsTracking.js:114-120 | a product batch holds, in order, exactly one list item per element added |
| `Tracking.ScanStep` | src/DOMComponentsTracking.js:109-125 | scanning one more element is one more `Step`: the element's id is appended to the ledger and the element to the batch exactly when the id was absent and the element is visible |
| `Tracking.ScanExtends` | src/DOMComponentsTracking.js:112-113 | the ledger only grows: after a pass it is the old ledger followed by the ids of the batch, and the batch is as long as what the ledger gained |
| `Tracking.ScanNoDuplicates` | src/DOMComponentsTracking.js:112-113 | a ledger without duplicates keeps none after a pass |
| `Tracking.ScanAddsOnlyNewVisible` | src/DOMComponentsTracking.js:112-113 | every element in the batch was scanned, passed the visibility test, and had an id absent from the ledger before the pass |
| `Tracking.ScanComplete` | src/DOMComponentsTracking.js:112-113 | after a pass, the id of every scanned visible element is in the ledger |
| `Tracking.ScanNothingNew` | src/DOMComponentsTracking.js:112-113 | a pass in which every visible element's id is already recorded changes nothing and batches nothing |
| `Tracking.ScanIdempotent` | src/DOMComponentsTracking.js:112-113 | views are reported once (ids read as NaN excepted, see "## Left out"): a second pass over the same elements with the ledger the first left adds no id and batches nothing |
| `Tracking.RepeatedIdSkipped` | src/DOMComponentsTracking.js:111-113 | of two elements with the same id, a visible first one records the id and joins the batch, and the second adds nothing |
| `Tracking.MissingIdRecorded` | src/DOMComponentsTracking.js:111-113 | the callback on a list assigned by code outside the tracker: a visible element without the id attribute puts `undefined` into the ledger, and a later element without it is then skipped |
| `Tracking.ViewedEventsBatch` | src/DOMComponentsTracking.js:127-133 | each type emits one event when its batch is non-empty and none otherwise; the event has the type's shape and carries the whole batch |
| `Tracking.ViewedBatchCountsNewIds` | src/DOMComponentsTracking.js:107-133 | there is an event exactly when the ledger grew, and its list is as long as the number of ids newly added to the ledger |
| `Tracking.ClickedEventShape` | src/DOMComponentsTracking.js:86-94 | a click on a product gives a "Clicked Product" record with the clicked id, carrying the nearest list name as `listId` exactly when that name is truthy; a click on a campaign gives a "Clicked Campaign" record with the clicked id |
| `Tracking.DOMComponentsTracking.constructor` | src/DOMComponentsTracking.js:16-30 | both ledgers and both element lists start empty, and the rectangle is undefined |
| `Tracking.DOMComponentsTracking.DefineDocBoundaries` | src/DOMComponentsTracking.js:54-64 | after the call the rectangle is `DocBoundaries` of the current window and `maxWebsiteWidth`, whatever it was before |
| `Tracking.DOMComponentsTracking.IsVisible` | src/DOMComponentsTracking.js:194-235 | the result is exactly `Visible` against the current rectangle: the style gate, both overlap tests (both fail while the rectangle is undefined), and the element being the hit element or one of its ancestors. The walk terminates |
| `Tracking.DOMComponentsTracking.FireViewedProduct` | src/DOMComponentsTracking.js:149-155 | exactly one "Viewed Product" record is appended to `digitalData.events` |
| `Tracking.DOMComponentsTracking.FireViewedCampaign` | src/DOMComponentsTracking.js:157-163 | exactly one "Viewed Campaign" record is appended |
| `Tracking.DOMComponentsTracking.FireClickedProduct` | src/DOMComponentsTracking.js:165-177 | exactly one "Clicked Product" record is appended, with `listId` only when it is truthy |
| `Tracking.DOMComponentsTracking.FireClickedCampaign` | src/DOMComponentsTracking.js:179-185 | exactly one "Clicked Campaign" record is appended |
| `Tracking.DOMComponentsTracking.OnClickHandler` | src/DOMComponentsTracking.js:86-95 | one run of the handler, for one element matching `[data-ddl-clicked-<type>]`, appends exactly the one record `ClickedEvent` for that element and leaves every field of the tracker, the ledgers included, unchanged |
| `Tracking.DOMComponentsTracking.UpdateDigitalDataDomComponents` | src/DOMComponentsTracking.js:76-81 | each type's element list becomes the body's elements carrying that type's viewed-id attribute |
| `Tracking.DOMComponentsTracking.TrackComponentView` | src/DOMComponentsTracking.js:109-125 | the per-element callback performs one `Step`: it changes only its own type's ledger and extends the batch with the element's record exactly when the step adds it |
| `Tracking.DOMComponentsTracking.FireViewedBatch` | src/DOMComponentsTracking.js:127-133 | the events appended are `ViewedEvents` of the batch: one event if the batch is non-empty, none otherwise |
| `Tracking.DOMComponentsTracking.ScanNext` | src/DOMComponentsTracking.js:109-125 | one round of the loop: if the ledger and batch are those `Scan` gives for the first `i` elements, after the callback on element `i` they are those `Scan` gives for the first `i + 1` |
| `Tracking.DOMComponentsTracking.ScanComponents` | src/DOMComponentsTracking.js:107-125 | the loop over a type's elements leaves that type's ledger as `Scan` leaves it, leaves the other type's ledger untouched, and builds the batch of the elements `Scan` added, in order |
| `Tracking.DOMComponentsTracking.TrackViewsOf` | src/DOMComponentsTracking.js:106-134 | one type's pass: the ledger becomes `Scan`'s, stays free of duplicates, and the events appended are those of the batch |
| `Tracking.DOMComponentsTracking.TrackViews` | src/DOMComponentsTracking.js:105-135 | campaigns then products: each ledger becomes its own `Scan`'s; the campaign event, if any, is appended before the product event, and nothing else is appended |
| `Tracking.DOMComponentsTracking.Tick` | src/DOMComponentsTracking.js:138-141 | one tick refreshes the element lists from the page, then tracks views over the refreshed lists |
| `Tracking.ClickTwice` | src/DOMComponentsTracking.js:83-103 | two runs of the handler for the same element append two identical records: clicks are not deduplicated, and the viewed ledger is untouched |

## Left out

- `initialize` (src/DOMComponentsTracking.js:32-49) is not modelled. It checks
  for jQuery, waits for document-ready and guesses the site width from the
  body's children. All of this is host glue and DOM reads.
- The `setInterval` polling in `startTracking` (lines 137-147) is not
  modelled. One run of `_track` is the method `Tick`; a timer has nothing
  further to prove.
- The `resize` and `scroll` listeners (lines 68-73) are not modelled.
  `DefineDocBoundaries` is the body they run, called explicitly with the
  current window.
- The delegated handler registration via `jQuery(document).on` (lines 98-102)
  is not modelled. `OnClickHandler` is one run of the handler body, called
  with the component type and one element matching
  `[data-ddl-clicked-<type>]`. The model does not capture how many runs one
  click triggers. jQuery runs a delegated handler once for every matching
  element from the click target up to the document, each time with that
  element. So a click inside two nested `data-ddl-clicked-product` elements
  appends two "Clicked Product" records. A click on an element carrying both
  `data-ddl-clicked-campaign` and `data-ddl-clicked-product` appends a
  campaign record and then a product record.
- Real DOM queries are inputs of the `Page` value:
  - `$elem.is(':visible')`, `.css('opacity')` and `.css('visibility')` are
    the element's `Style`;
  - `.offset()`, `.width()` and `.height()` are its `Box`;
  - `$(window)` scroll and size are the `Window`;
  - `document.elementFromPoint` is a function of the page;
  - `obj.find` on the body searches the given sequence of body descendants
    in document order.
- jQuery's `.data()` conversion of attribute text (numbers, booleans, `null`,
  JSON) is not modelled. Each attribute holds the converted value directly.
  Objects and arrays decoded from JSON are not among the values, so `===` on
  ids is structural equality here. NaN is not among them either. jQuery reads
  the attribute text `"NaN"` as the number NaN, and `indexOf` never finds
  NaN (line 112). So the program records a visible element with that id
  again, and reports it in a new "Viewed" event, on every tick.
- Tracking.ScanIdempotent: like `ScanComplete`, `ScanNothingNew` and
  `ScanNoDuplicates`, it does not cover an id read as NaN. With such an id,
  the program reports the element on every tick, as the line above says.
- jQuery's per-element `.data()` cache is not modelled. The program reads
  an element's `data-ddl-viewed-*`, `data-ddl-clicked-*` and
  `data-ddl-product-list-name` attribute once and then keeps that value, so a
  DOM node reused with a changed attribute is still reported under its first
  id. `DataOf` reads the page afresh on every tick, so the model reports such
  a node under its new id.
- Floating-point arithmetic is not modelled: the `/2` and `/4` divisions and
  all comparisons are exact `real` arithmetic. There is no NaN, infinity or
  rounding, and no fractional-pixel behaviour of the hit test.
- A `parentNode` that is neither an element nor the document, such as a
  shadow root or a document fragment, is treated like a missing parent: the
  walk ends there and the element is not visible.
- The page's parent links are assumed acyclic, as they are in a real DOM.
  `.closest`, `isVisible` and everything that calls them take a ghost `rank`
  that decreases from child to parent as evidence.
- `findByDataAttr`'s optional second argument `obj` (line 246) is not
  modelled: the tracker always searches the whole body.
- Access to `window.digitalData` by code outside the tracker is not modelled.
  The shared list is the `DigitalData` object the tracker holds.
- The model assumes `window.digitalData.events` exists. Every `fire*` method
  (lines 150, 158, 172, 180) throws when it is missing. In `trackViews` that
  throw comes after line 113 has put the batch's ids into the ledger, so
  those views are recorded and never reported. The model has no such path.
- The constructor's element lists are plain arrays (lines 26-29), which have
  no `.each`. So `trackViews` called before the first
  `updateDigitalDataDomComponents` throws a TypeError at line 109, on the
  campaign pass. The model's constructor gives empty sequences, and
  `TrackViews` from that state returns normally having appended nothing.
  Through `Tick`, which refreshes the lists first, the case does not arise.

=== FILE: dom.dfy ===
/** An abstract page: the elements the tracker reads, their parent links,
    `data-*` attributes, geometry and computed style, the window's scroll
    position and size, and the browser's hit test `document.elementFromPoint`,
    which is an input to the model. Also the attribute selector the tracker
    builds and the jQuery lookups it uses (`.closest` and `.find` on such a
    selector). */
module Dom {
  import opened Values

  type ElementId = nat

  /** What an element's `parentNode` is: the document, nothing (a detached
      element), or another element. */
  datatype ParentRef = DocumentParent | NoParent | ElementParent(id: ElementId)

  /** `$elem.offset()` together with `$elem.width()` and `$elem.height()`. */
  datatype Box = Box(top: real, left: real, width: real, height: real)

  /** `$elem.is(':visible')`, `$elem.css('opacity')` and `$elem.css('visibility')`. */
  datatype Style = Style(shown: bool, opacity: real, visibility: string)

  datatype Node = Node(parent: ParentRef, data: map<string, DataValue>, box: Box, style: Style)

  /** `$(window).scrollTop()`, `.scrollLeft()`, `.width()` and `.height()`. */
  datatype Window = Window(scrollTop: real, scrollLeft: real, width: real, height: real)

  /** `body` lists the descendants of the document body in document order. */
  datatype Page = Page(
    nodes: map<ElementId, Node>,
    body: seq<ElementId>,
    window: Window,
    elementFromPoint: (real, real) -> Option<ElementId>)

  /** What an id that is not part of the page stands for: a detached element
      with no attributes that is not displayed. */
  const Detached := Node(NoParent, map[], Box(0.0, 0.0, 0.0, 0.0), Style(false, 0.0, "visible"))

  function NodeOf(page: Page, id: ElementId): Node
  {
    if id in page.nodes then page.nodes[id] else Detached
  }

  /** `$(el).data(key)`. */
  function DataOf(page: Page, id: ElementId, key: string): DataValue
  {
    var data := NodeOf(page, id).data;
    if key in data then data[key] else Undefined
  }

  /** `.data(key)` on a jQuery set of at most one element: undefined when empty. */
  function DataOfFirst(page: Page, x: Option<ElementId>, key: string): DataValue
  {
    match x
    case None => Undefined
    case Some(id) => DataOf(page, id, key)
  }

  /** One step up the element chain; the document and a missing parent both
      end the chain of elements. */
  function ParentElement(page: Page, x: Option<ElementId>): Option<ElementId>
  {
    match x
    case None => None
    case Some(id) =>
      match NodeOf(page, id).parent
      case ElementParent(p) => Some(p)
      case _ => None
  }

  /** The `k`-th element up from `x` (`x` itself for `k == 0`). */
  function Up(page: Page, x: Option<ElementId>, k: nat): Option<ElementId>
    decreases k
  {
    if k == 0 then x else Up(page, ParentElement(page, x), k - 1)
  }

  /** `el` is `x` or one of its ancestor elements. */
  ghost predicate AncestorOrSelf(page: Page, x: Option<ElementId>, el: ElementId)
  {
    exists k: nat :: Up(page, x, k) == Some(el)
  }

  /** `rank` strictly decreases from `id` to its parent element, if it has one. */
  ghost predicate RankedAt(page: Page, rank: map<ElementId, nat>, id: ElementId)
  {
    id in page.nodes && page.nodes[id].parent.ElementParent? ==>
      id in rank && page.nodes[id].parent.id in rank && rank[page.nodes[id].parent.id] < rank[id]
  }

  /** `rank` strictly decreases from every element to its parent element, so
      the parent links of the page hold no cycle. */
  ghost predicate Ranked(page: Page, rank: map<ElementId, nat>)
  {
    forall id :: RankedAt(page, rank, id)
  }

  ghost function Measure(x: Option<ElementId>, rank: map<ElementId, nat>): nat
  {
    match x
    case None => 0
    case Some(id) => 1 + (if id in rank then rank[id] else 0)
  }

  lemma ParentDecreases(page: Page, rank: map<ElementId, nat>, x: Option<ElementId>)
    requires Ranked(page, rank) && x.Some?
    ensures Measure(ParentElement(page, x), rank) < Measure(x, rank)
  {
    assert RankedAt(page, rank, x.value);
  }

  lemma {:induction false} UpNone(page: Page, k: nat)
    ensures Up(page, None, k) == None
  {
    if k > 0 {
      UpNone(page, k - 1);
    }
  }

  lemma {:induction false} UpAdd(page: Page, x: Option<ElementId>, a: nat, b: nat)
    ensures Up(page, x, a + b) == Up(page, Up(page, x, a), b)
    decreases a
  {
    if a > 0 {
      UpAdd(page, ParentElement(page, x), a - 1, b);
    }
  }

  /** On an acyclic page every chain of parent links ends: at most
      `Measure(x, rank)` steps up from `x` there is no element left. This is
      the measure the walk in `IsVisible` decreases. */
  lemma {:induction false} ChainEnds(page: Page, rank: map<ElementId, nat>, x: Option<ElementId>)
    requires Ranked(page, rank)
    ensures Up(page, x, Measure(x, rank)) == None
    decreases Measure(x, rank)
  {
    if x.Some? {
      var p := ParentElement(page, x);
      ParentDecreases(page, rank, x);
      ChainEnds(page, rank, p);
      var m := Measure(p, rank);
      var n := Measure(x, rank) - 1;
      UpAdd(page, p, m, n - m);
      UpNone(page, n - m);
    }
  }

  /** `getDataAttrSelector`: the selector matching elements that carry the
      attribute `data-<name>`. */
  function GetDataAttrSelector(name: string): (selector: string)
    ensures ParseDataAttrSelector(selector) == Some(name)
  {
    "[data-" + name + "]"
  }

  /** Reads back the attribute name from a selector of the form `[data-<name>]`. */
  function ParseDataAttrSelector(selector: string): Option<string>
  {
    if |selector| >= 7 && selector[..6] == "[data-" && selector[|selector| - 1] == ']'
    then Some(selector[6..|selector| - 1])
    else None
  }

  lemma SelectorInjective(a: string, b: string)
    requires GetDataAttrSelector(a) == GetDataAttrSelector(b)
    ensures a == b
  {
    assert ParseDataAttrSelector(GetDataAttrSelector(a)) == Some(a);
  }

  /** Whether an element matches a selector: only attribute-presence
      selectors `[data-<name>]` are used, and they match the elements
      carrying `data-<name>`. */
  predicate Matches(page: Page, id: ElementId, selector: string)
  {
    var name := ParseDataAttrSelector(selector);
    name.Some? && name.value in NodeOf(page, id).data
  }

  /** The selector built for `name` matches exactly the elements carrying
      `data-<name>`: the lookups below therefore take the name itself. */
  lemma MatchesDataAttr(page: Page, id: ElementId, name: string)
    ensures Matches(page, id, GetDataAttrSelector(name)) <==> name in NodeOf(page, id).data
  {
  }

  /** jQuery's `.closest(getDataAttrSelector(name))`: the first of `x` and
      its ancestor elements that carries `data-<name>`. It tests
      `name in data` directly, which `MatchesDataAttr` shows is what
      matching the selector means. */
  function Closest(page: Page, x: Option<ElementId>, name: string, ghost rank: map<ElementId, nat>): (r: Option<ElementId>)
    requires Ranked(page, rank)
    ensures r.Some? ==> name in NodeOf(page, r.value).data
    decreases Measure(x, rank)
  {
    match x
    case None => None
    case Some(id) =>
      if name in NodeOf(page, id).data then x
      else
        ParentDecreases(page, rank, x);
        Closest(page, ParentElement(page, x), name, rank)
  }

  /** `findParentByDataAttr(name, $el)`: the nearest ancestor-or-self of `el`
      carrying `data-<name>`. */
  function FindParentByDataAttr(page: Page, el: ElementId, name: string, ghost rank: map<ElementId, nat>): (r: Option<ElementId>)
    requires Ranked(page, rank)
    ensures r.Some? ==> name in NodeOf(page, r.value).data
  {
    Closest(page, Some(el), name, rank)
  }

  /** No element among the first `k` of the chain from `x` carries `data-<name>`. */
  ghost predicate NoMatchBelow(page: Page, x: Option<ElementId>, name: string, k: nat)
  {
    forall j: nat :: j < k ==> Up(page, x, j).Some? && name !in NodeOf(page, Up(page, x, j).value).data
  }

  /** `.closest` returns the NEAREST match: the element found lies `k` steps up
      and nothing below it carries the attribute; when nothing is found,
      nothing on the chain carries it. */
  lemma {:induction false} ClosestIsNearest(page: Page, x: Option<ElementId>, name: string, rank: map<ElementId, nat>)
    requires Ranked(page, rank)
    ensures Closest(page, x, name, rank).Some? ==>
      exists k: nat :: Up(page, x, k) == Closest(page, x, name, rank) && NoMatchBelow(page, x, name, k)
    ensures Closest(page, x, name, rank).None? ==>
      forall k: nat :: Up(page, x, k).Some? ==> name !in NodeOf(page, Up(page, x, k).value).data
    decreases Measure(x, rank)
  {
    var r := Closest(page, x, name, rank);
    match x
    case None =>
      forall k: nat ensures Up(page, x, k) == None {
        UpNone(page, k);
      }
    case Some(id) =>
      if name in NodeOf(page, id).data {
        assert Up(page, x, 0) == r && NoMatchBelow(page, x, name, 0);
      } else {
        var p := ParentElement(page, x);
        ParentDecreases(page, rank, x);
        ClosestIsNearest(page, p, name, rank);
        assert r == Closest(page, p, name, rank);
        if r.Some? {
          var k': nat :| Up(page, p, k') == r && NoMatchBelow(page, p, name, k');
          assert Up(page, x, k' + 1) == r;
          forall j: nat | j < k' + 1
            ensures Up(page, x, j).Some? && name !in NodeOf(page, Up(page, x, j).value).data
          {
            if j > 0 {
              assert Up(page, x, j) == Up(page, p, j - 1);
            }
          }
          assert NoMatchBelow(page, x, name, k' + 1);
        } else {
          forall k: nat | Up(page, x, k).Some?
            ensures name !in NodeOf(page, Up(page, x, k).value).data
          {
            if k > 0 {
              assert Up(page, x, k) == Up(page, p, k - 1);
            }
          }
        }
      }
  }

  /** `obj.find(getDataAttrSelector(name))` over the elements `els`: those
      carrying `data-<name>`, in document order. Like `Closest`, it tests
      `name in data`, equivalent to the selector by `MatchesDataAttr`. */
  function FindAll(page: Page, els: seq<ElementId>, name: string): (found: seq<ElementId>)
    ensures |found| <= |els|
    ensures forall e :: e in found <==> e in els && name in NodeOf(page, e).data
  {
    if els == [] then []
    else
      var last := els[|els| - 1];
      var rest := FindAll(page, els[..|els| - 1], name);
      assert els == els[..|els| - 1] + [last];
      if name in NodeOf(page, last).data then rest + [last] else rest
  }

  /** `findByDataAttr(name)`: the descendants of the body carrying
      `data-<name>`, in document order. */
  function FindByDataAttr(page: Page, name: string): (found: seq<ElementId>)
    ensures forall e :: e in found <==> e in page.body && name in NodeOf(page, e).data
  {
    FindAll(page, page.body, name)
  }

  /** `FindAll` is a filter that keeps the input's order: finding in two runs
      of elements one after the other is finding in each, concatenated. */
  lemma {:induction false} FindAllAppend(page: Page, a: seq<ElementId>, b: seq<ElementId>, name: string)
    ensures FindAll(page, a + b, name) == FindAll(page, a, name) + FindAll(page, b, name)
    decreases |b|
  {
    if b == [] {
      assert a + b == a;
    } else {
      var front := b[..|b| - 1];
      var last := b[|b| - 1];
      assert (a + b)[..|a + b| - 1] == a + front;
      assert (a + b)[|a + b| - 1] == last;
      FindAllAppend(page, a, front, name);
    }
  }

  /** On a single element `FindAll` keeps it exactly when it carries `data-<name>`. */
  lemma FindAllOne(page: Page, e: ElementId, name: string)
    ensures FindAll(page, [e], name) == if name in NodeOf(page, e).data then [e] else []
  {
    assert [e][..0] == [];
  }

  /** An element listed once in the input is listed once in the result. */
  lemma {:induction false} FindAllNoDuplicates(page: Page, els: seq<ElementId>, name: string)
    requires NoDuplicates(els)
    ensures NoDuplicates(FindAll(page, els, name))
    decreases |els|
  {
    if els != [] {
      var front := els[..|els| - 1];
      var last := els[|els| - 1];
      assert NoDuplicates(front) by {
        forall i, j | 0 <= i < j < |front| ensures front[i] != front[j] {
          assert front[i] == els[i] && front[j] == els[j];
        }
      }
      FindAllNoDuplicates(page, front, name);
      var rest := FindAll(page, front, name);
      if name in NodeOf(page, last).data {
        forall i | 0 <= i < |front| ensures front[i] != last {
          assert front[i] == els[i];
        }
        assert last !in rest;
        var found := rest + [last];
        forall i, j | 0 <= i < j < |found| ensures found[i] != found[j] {
          if j == |rest| {
            assert found[i] == rest[i];
          } else {
            assert found[i] == rest[i] && found[j] == rest[j];
          }
        }
      }
    }
  }
}

=== FILE: events.dfy ===
/** The records the tracker pushes onto `digitalData.events`: four shapes,
    each a fixed name and category with one payload field. */
module Events {
  import opened Values

  /** `{ product: { id }, listId? }`; `listId` is `None` when the field is absent. */
  datatype ListItem = ListItem(productId: DataValue, listId: Option<DataValue>)

  /** The payload field of an event record: `listItems`, `campaigns`,
      `listItem` or `campaign`. */
  datatype Payload =
    | ListItems(listItems: seq<ListItem>)
    | Campaigns(campaigns: seq<DataValue>)
    | OneListItem(listItem: ListItem)
    | OneCampaign(campaign: DataValue)

  datatype Event = Event(name: string, category: string, payload: Payload)

  /** The four shapes: each payload field goes with one name and one category. */
  predicate WellShaped(e: Event)
  {
    match e.payload
    case ListItems(_) => e.name == "Viewed Product" && e.category == "Ecommerce"
    case Campaigns(_) => e.name == "Viewed Campaign" && e.category == "Promo"
    case OneListItem(_) => e.name == "Clicked Product" && e.category == "Ecommerce"
    case OneCampaign(_) => e.name == "Clicked Campaign" && e.category == "Promo"
  }

  /** A product list item: `listId` is set only when the list name read is truthy. */
  function MakeListItem(productId: DataValue, listId: DataValue): (item: ListItem)
    ensures item.productId == productId
    ensures item.listId.Some? <==> Truthy(listId)
    ensures item.listId.Some? ==> item.listId.value == listId
  {
    if Truthy(listId) then ListItem(productId, Some(listId)) else ListItem(productId, None)
  }

  /** The record of `fireViewedProduct(listItems)`. */
  function ViewedProduct(listItems: seq<ListItem>): (e: Event)
    ensures WellShaped(e) && e.payload.ListItems? && e.payload.listItems == listItems
  {
    Event("Viewed Product", "Ecommerce", ListItems(listItems))
  }

  /** The record of `fireViewedCampaign(campaigns)`. */
  function ViewedCampaign(campaigns: seq<DataValue>): (e: Event)
    ensures WellShaped(e) && e.payload.Campaigns? && e.payload.campaigns == campaigns
  {
    Event("Viewed Campaign", "Promo", Campaigns(campaigns))
  }

  /** The record of `fireClickedProduct(productId, listId)`. */
  function ClickedProduct(productId: DataValue, listId: DataValue): (e: Event)
    ensures WellShaped(e) && e.payload.OneListItem?
    ensures e.payload.listItem.productId == productId
    ensures e.payload.listItem.listId.Some? <==> Truthy(listId)
    ensures e.payload.listItem.listId.Some? ==> e.payload.listItem.listId.value == listId
  {
    Event("Clicked Product", "Ecommerce", OneListItem(MakeListItem(productId, listId)))
  }

  /** The record of `fireClickedCampaign(campaign)`: the id itself, not wrapped. */
  function ClickedCampaign(campaign: DataValue): (e: Event)
    ensures WellShaped(e) && e.payload.OneCampaign? && e.payload.campaign == campaign
  {
    Event("Clicked Campaign", "Promo", OneCampaign(campaign))
  }

  /** In a well-shaped record the name alone tells which payload field it has. */
  lemma NameDeterminesPayload(a: Event, b: Event)
    requires WellShaped(a) && WellShaped(b) && a.name == b.name
    ensures a.category == b.category
    ensures a.payload.ListItems? == b.payload.ListItems? && a.payload.Campaigns? == b.payload.Campaigns?
    ensures a.payload.OneListItem? == b.payload.OneListItem? && a.payload.OneCampaign? == b.payload.OneCampaign?
  {
  }
}

=== FILE: geometry.dfy ===
/** The viewport rectangle the tracker keeps (`_defineDocBoundaries`) and the
    "three quarters on screen" overlap test of `isVisible`. Arithmetic is
    exact (`real`). */
module Geometry {
  import opened Values
  import opened Dom

  /** The document-coordinate rectangle `docViewTop`, `docViewBottom`,
      `docViewLeft`, `docViewRight`. */
  datatype Rect = Rect(top: real, bottom: real, left: real, right: real)

  /** The re-centring condition: `maxWebsiteWidth` is truthy, smaller than
      the raw right edge, and the page is not scrolled horizontally. */
  predicate Recentres(w: Window, maxWebsiteWidth: Option<real>)
  {
    && maxWebsiteWidth.Some?
    && Truthy(Num(maxWebsiteWidth.value))
    && maxWebsiteWidth.value < w.scrollLeft + w.width
    && w.scrollLeft == 0.0
  }

  /** The rectangle `_defineDocBoundaries` computes from the window and the
      option `maxWebsiteWidth`. Without re-centring it is the window itself;
      re-centred, it is a column of width `maxWebsiteWidth` in the middle of
      the window. */
  function DocBoundaries(w: Window, maxWebsiteWidth: Option<real>): (r: Rect)
    ensures r.top == w.scrollTop && r.bottom - r.top == w.height
    ensures !Recentres(w, maxWebsiteWidth) ==>
      r.left == w.scrollLeft && r.right - r.left == w.width
    ensures Recentres(w, maxWebsiteWidth) ==>
      && r.left == (w.width - maxWebsiteWidth.value) / 2.0
      && r.left > 0.0
      && r.right - r.left == maxWebsiteWidth.value
    ensures (r.left == w.scrollLeft && r.right == w.scrollLeft + w.width) <==> !Recentres(w, maxWebsiteWidth)
  {
    var top := w.scrollTop;
    var left := w.scrollLeft;
    var right := left + w.width;
    if Recentres(w, maxWebsiteWidth) then
      var centredLeft := (right - maxWebsiteWidth.value) / 2.0;
      Rect(top, top + w.height, centredLeft, centredLeft + maxWebsiteWidth.value)
    else
      Rect(top, top + w.height, left, right)
  }

  /** `fitsVertical`: the element's middle half, from a quarter to three
      quarters of its height, lies between `view.top` and `view.bottom`. */
  function FitsVertical(box: Box, view: Rect): (fits: bool)
    ensures fits <==> view.top <= box.top + box.height / 4.0 && box.top + 3.0 * box.height / 4.0 <= view.bottom
  {
    var elemBottom := box.top + box.height;
    (elemBottom - box.height / 4.0 <= view.bottom) && (box.top + box.height / 4.0 >= view.top)
  }

  /** `fitsHorizontal`: the same test on the element's width. */
  function FitsHorizontal(box: Box, view: Rect): (fits: bool)
    ensures fits <==> view.left <= box.left + box.width / 4.0 && box.left + 3.0 * box.width / 4.0 <= view.right
  {
    var elemRight := box.left + box.width;
    (box.left + box.width / 4.0 >= view.left) && (elemRight - box.width / 4.0 <= view.right)
  }

  function Min(a: real, b: real): real { if a <= b then a else b }
  function Max(a: real, b: real): real { if a <= b then b else a }

  /** Length of the part of the segment [lo, hi] that lies in [viewLo, viewHi]
      (negative when they do not meet). */
  function Overlap(lo: real, hi: real, viewLo: real, viewHi: real): real
  {
    Min(hi, viewHi) - Max(lo, viewLo)
  }

  /** An element with non-negative size lying entirely inside the rectangle
      passes both tests. */
  lemma InsideFits(box: Box, view: Rect)
    requires box.width >= 0.0 && box.height >= 0.0
    requires view.top <= box.top && box.top + box.height <= view.bottom
    requires view.left <= box.left && box.left + box.width <= view.right
    ensures FitsVertical(box, view) && FitsHorizontal(box, view)
  {
  }

  /** An element whose top edge is below the rectangle fails the vertical test. */
  lemma BelowFails(box: Box, view: Rect)
    requires box.height >= 0.0
    requires box.top > view.bottom
    ensures !FitsVertical(box, view)
  {
  }

  /** When at least three quarters of the element's height lie in the
      rectangle, the vertical test passes. */
  lemma ThreeQuartersFit(box: Box, view: Rect)
    requires box.height >= 0.0
    requires Overlap(box.top, box.top + box.height, view.top, view.bottom) >= 3.0 * box.height / 4.0
    ensures FitsVertical(box, view)
  {
  }

  /** Conversely, an element cut off on at most one side that passes the
      vertical test has at least three quarters of its height in the
      rectangle. */
  lemma FitImpliesThreeQuarters(box: Box, view: Rect)
    requires box.height >= 0.0
    requires FitsVertical(box, view)
    requires view.top <= box.top || box.top + box.height <= view.bottom
    ensures Overlap(box.top, box.top + box.height, view.top, view.bottom) >= 3.0 * box.height / 4.0
  {
  }

  /** An element cut off on both sides passes as long as its middle half is
      in the rectangle: here a 100-high element shows only 60 of its height. */
  lemma TallElementFits()
    ensures var box := Box(0.0, 0.0, 0.0, 100.0);
      var view := Rect(20.0, 80.0, 0.0, 0.0);
      FitsVertical(box, view) && Overlap(box.top, box.top + box.height, view.top, view.bottom) == 60.0
  {
  }

  /** The vertical threshold is exact: cut off at the top by exactly a
      quarter of its height, the element passes; by any more, it fails. */
  lemma VerticalThreshold(box: Box, view: Rect, d: real)
    requires box.height >= 0.0 && box.top + box.height <= view.bottom
    requires box.top == view.top - box.height / 4.0
    ensures FitsVertical(box, view)
    ensures d > 0.0 ==> !FitsVertical(box.(top := box.top - d), view)
  {
  }

  /** The same for the horizontal test, cut off at the right edge. */
  lemma HorizontalThreshold(box: Box, view: Rect, d: real)
    requires box.width >= 0.0 && view.left <= box.left
    requires box.left + box.width == view.right + box.width / 4.0
    ensures FitsHorizontal(box, view)
    ensures d > 0.0 ==> !FitsHorizontal(box.(left := box.left + d), view)
  {
  }
}

=== FILE: tracking.dfy ===
/** The `DOMComponentsTracking` class: the viewport rectangle, the visibility
    test, the view-tracking tick with its per-type ledger of viewed ids, and
    the click handler, together with the functions that specify a tick and
    the lemmas about them. */
module Tracking {
  import opened Values
  import opened Dom
  import opened Geometry
  import opened Events

  datatype ComponentType = Product | Campaign

  function TypeName(t: ComponentType): string
  {
    match t
    case Product => "product"
    case Campaign => "campaign"
  }

  /** `'ddl-viewed-' + type`: the attribute holding the id to report as viewed. */
  function ViewedKey(t: ComponentType): string { "ddl-viewed-" + TypeName(t) }

  /** `'ddl-clicked-' + type`: the attribute holding the id to report as clicked. */
  function ClickedKey(t: ComponentType): string { "ddl-clicked-" + TypeName(t) }

  const ListNameKey := "ddl-product-list-name"

  /** The options object; the re-centring reads `maxWebsiteWidth`, while the
      constructor's default is for `websiteMaxWidth`. `None` is `undefined`. */
  datatype Options = Options(websiteMaxWidth: Option<real>, maxWebsiteWidth: Option<real>)

  // ----- Visibility -------------------------------------------------------

  /** The style gate: displayed, opacity above zero, `visibility` not `hidden`. */
  predicate StyleVisible(s: Style)
  {
    s.shown && s.opacity > 0.0 && s.visibility != "hidden"
  }

  /** The element found at the centre of the box, in window coordinates. */
  function HitElement(page: Page, box: Box): Option<ElementId>
  {
    page.elementFromPoint(
      box.left - page.window.scrollLeft + box.width / 2.0,
      box.top - page.window.scrollTop + box.height / 2.0)
  }

  /** What `isVisible` decides for `el` against the rectangle `view` (`None`
      while the rectangle is still undefined): the style gate, both overlap
      tests, and `el` being the element hit at its centre or an ancestor of it. */
  ghost predicate Visible(page: Page, view: Option<Rect>, el: ElementId)
  {
    var node := NodeOf(page, el);
    && StyleVisible(node.style)
    && view.Some?
    && FitsVertical(node.box, view.value)
    && FitsHorizontal(node.box, view.value)
    && AncestorOrSelf(page, HitElement(page, node.box), el)
  }

  /** A failing style flag makes an element invisible whatever its geometry. */
  lemma StyleGate(page: Page, view: Option<Rect>, el: ElementId)
    requires !NodeOf(page, el).style.shown || NodeOf(page, el).style.opacity <= 0.0
      || NodeOf(page, el).style.visibility == "hidden"
    ensures !Visible(page, view, el)
  {
  }

  /** When the hit test finds nothing, the element is not visible. */
  lemma NullHitNotVisible(page: Page, view: Option<Rect>, el: ElementId)
    requires HitElement(page, NodeOf(page, el).box) == None
    ensures !Visible(page, view, el)
  {
    forall k: nat ensures Up(page, None, k) == None {
      UpNone(page, k);
    }
  }

  /** Once the chain from `x` has no parent element after `k` steps, every
      later step finds nothing. */
  lemma {:induction false} UpPastEnd(page: Page, x: Option<ElementId>, k: nat, j: nat)
    requires ParentElement(page, Up(page, x, k)) == None && j > k
    ensures Up(page, x, j) == None
  {
    UpAdd(page, x, k, 1);
    UpAdd(page, x, k + 1, j - k - 1);
    UpNone(page, j - k - 1);
  }

  /** The walk of `isVisible` stopped after `k` steps, at `el` or where the
      chain of elements ends, and did not meet `el` before: `el` is on the
      chain exactly when the walk stopped at it. */
  lemma WalkStopped(page: Page, hit: Option<ElementId>, el: ElementId, k: nat)
    requires forall j: nat :: j < k ==> Up(page, hit, j) != Some(el)
    requires Up(page, hit, k) == Some(el) || ParentElement(page, Up(page, hit, k)) == None
    ensures AncestorOrSelf(page, hit, el) <==> Up(page, hit, k) == Some(el)
  {
    if Up(page, hit, k) == Some(el) {
      assert AncestorOrSelf(page, hit, el);
    } else if AncestorOrSelf(page, hit, el) {
      var j: nat :| Up(page, hit, j) == Some(el);
      if j > k {
        UpPastEnd(page, hit, k, j);
      }
      assert false;
    }
  }

  // ----- The view-tracking tick, as functions -------------------------------

  /** `listId` for a product element: the list name on its nearest
      ancestor-or-self carrying `data-ddl-product-list-name`. */
  function ListIdOf(page: Page, el: ElementId, ghost rank: map<ElementId, nat>): DataValue
    requires Ranked(page, rank)
  {
    DataOfFirst(page, FindParentByDataAttr(page, el, ListNameKey, rank), ListNameKey)
  }

  /** The list item a viewed product element contributes to its batch. */
  function ProductListItem(page: Page, el: ElementId, ghost rank: map<ElementId, nat>): (item: ListItem)
    requires Ranked(page, rank)
    ensures item.productId == DataOf(page, el, ViewedKey(Product))
    ensures item.listId.Some? <==> Truthy(ListIdOf(page, el, rank))
    ensures item.listId.Some? ==> item.listId.value == ListIdOf(page, el, rank)
  {
    MakeListItem(DataOf(page, el, ViewedKey(Product)), ListIdOf(page, el, rank))
  }

  /** The values of attribute `key` on `els`, in order. */
  function IdsOf(page: Page, key: string, els: seq<ElementId>): seq<DataValue>
  {
    if els == [] then [] else IdsOf(page, key, els[..|els| - 1]) + [DataOf(page, els[|els| - 1], key)]
  }

  /** The list items of the product elements `els`, in order. */
  function ProductItems(page: Page, els: seq<ElementId>, ghost rank: map<ElementId, nat>): seq<ListItem>
    requires Ranked(page, rank)
  {
    if els == [] then [] else ProductItems(page, els[..|els| - 1], rank) + [ProductListItem(page, els[|els| - 1], rank)]
  }

  /** The ids of a batch correspond one to one, in order, to its elements. */
  lemma {:induction false} IdsOfAt(page: Page, key: string, els: seq<ElementId>)
    ensures |IdsOf(page, key, els)| == |els|
    ensures forall i :: 0 <= i < |els| ==> IdsOf(page, key, els)[i] == DataOf(page, els[i], key)
  {
    if els != [] {
      var prefix := els[..|els| - 1];
      IdsOfAt(page, key, prefix);
      forall i | 0 <= i < |prefix| ensures IdsOf(page, key, els)[i] == DataOf(page, els[i], key) {
        assert els[i] == prefix[i];
      }
    }
  }

  /** The list items of a product batch correspond one to one, in order, to
      its elements. */
  lemma {:induction false} ProductItemsAt(page: Page, els: seq<ElementId>, rank: map<ElementId, nat>)
    requires Ranked(page, rank)
    ensures |ProductItems(page, els, rank)| == |els|
    ensures forall i :: 0 <= i < |els| ==> ProductItems(page, els, rank)[i] == ProductListItem(page, els[i], rank)
  {
    if els != [] {
      var prefix := els[..|els| - 1];
      ProductItemsAt(page, prefix, rank);
      forall i | 0 <= i < |prefix| ensures ProductItems(page, els, rank)[i] == ProductListItem(page, els[i], rank) {
        assert els[i] == prefix[i];
      }
    }
  }

  /** The ledger of one type after scanning some elements, and the elements
      whose ids were added, in order. */
  datatype ScanState = ScanState(ledger: seq<DataValue>, added: seq<ElementId>)

  /** One element of the scan of type `t` in `trackViews`: when the element's
      id is not yet in the ledger and the element is visible, its id is
      appended to the ledger and the element joins the batch. */
  ghost function Step(page: Page, view: Option<Rect>, t: ComponentType, s: ScanState, el: ElementId): ScanState
  {
    var id := DataOf(page, el, ViewedKey(t));
    if id !in s.ledger && Visible(page, view, el) then ScanState(s.ledger + [id], s.added + [el]) else s
  }

  /** The scan of one type in `trackViews`: `Step` over the elements in order. */
  ghost function Scan(page: Page, view: Option<Rect>, t: ComponentType, ledger: seq<DataValue>, els: seq<ElementId>): ScanState
    decreases |els|
  {
    if els == [] then ScanState(ledger, [])
    else Step(page, view, t, Scan(page, view, t, ledger, els[..|els| - 1]), els[|els| - 1])
  }

  /** The batch a pass of type `t` builds for the elements `added`: product
      list items, or campaign ids. */
  ghost predicate Batch(page: Page, t: ComponentType, added: seq<ElementId>, rank: map<ElementId, nat>,
                        products: seq<ListItem>, campaigns: seq<DataValue>)
    requires Ranked(page, rank)
  {
    match t
    case Product => products == ProductItems(page, added, rank)
    case Campaign => campaigns == IdsOf(page, ViewedKey(Campaign), added)
  }

  /** The events one type's scan pushes: one batched "Viewed" event when its
      batch is non-empty, none otherwise. */
  function ViewedEvents(page: Page, t: ComponentType, added: seq<ElementId>, ghost rank: map<ElementId, nat>): seq<Event>
    requires Ranked(page, rank)
  {
    if added == [] then []
    else
      match t
      case Product => [ViewedProduct(ProductItems(page, added, rank))]
      case Campaign => [ViewedCampaign(IdsOf(page, ViewedKey(Campaign), added))]
  }

  /** The record a click on `el` pushes. */
  function ClickedEvent(page: Page, t: ComponentType, el: ElementId, ghost rank: map<ElementId, nat>): Event
    requires Ranked(page, rank)
  {
    match t
    case Product => ClickedProduct(DataOf(page, el, ClickedKey(Product)), ListIdOf(page, el, rank))
    case Campaign => ClickedCampaign(DataOf(page, el, ClickedKey(Campaign)))
  }

  // ----- Lemmas about a tick ------------------------------------------------

  /** Scanning a prefix one element longer is one more `Step`. */
  lemma ScanStep(page: Page, view: Option<Rect>, t: ComponentType, ledger: seq<DataValue>, els: seq<ElementId>, i: nat)
    requires i < |els|
    ensures Scan(page, view, t, ledger, els[..i + 1]) == Step(page, view, t, Scan(page, view, t, ledger, els[..i]), els[i])
  {
    assert els[..i + 1][..i] == els[..i];
  }

  /** The ledger only grows: it is the old ledger followed by the ids of the
      batch, so the batch is exactly as long as what the ledger gained. */
  lemma {:induction false} ScanExtends(page: Page, view: Option<Rect>, t: ComponentType, ledger: seq<DataValue>, els: seq<ElementId>)
    ensures Scan(page, view, t, ledger, els).ledger == ledger + IdsOf(page, ViewedKey(t), Scan(page, view, t, ledger, els).added)
    ensures |Scan(page, view, t, ledger, els).added| == |Scan(page, view, t, ledger, els).ledger| - |ledger|
    decreases |els|
  {
    if els != [] {
      var s := Scan(page, view, t, ledger, els[..|els| - 1]);
      ScanExtends(page, view, t, ledger, els[..|els| - 1]);
      var el := els[|els| - 1];
      var added := s.added + [el];
      assert added[..|added| - 1] == s.added;
    }
  }

  /** A ledger without duplicates keeps none. */
  lemma {:induction false} ScanNoDuplicates(page: Page, view: Option<Rect>, t: ComponentType, ledger: seq<DataValue>, els: seq<ElementId>)
    requires NoDuplicates(ledger)
    ensures NoDuplicates(Scan(page, view, t, ledger, els).ledger)
    decreases |els|
  {
    if els != [] {
      ScanNoDuplicates(page, view, t, ledger, els[..|els| - 1]);
    }
  }

  /** Every element in the batch is one of the scanned elements, passed the
      visibility test, and had an id absent from the ledger before the tick. */
  lemma {:induction false} ScanAddsOnlyNewVisible(page: Page, view: Option<Rect>, t: ComponentType, ledger: seq<DataValue>, els: seq<ElementId>)
    ensures forall e :: e in Scan(page, view, t, ledger, els).added ==>
      e in els && Visible(page, view, e) && DataOf(page, e, ViewedKey(t)) !in ledger
    decreases |els|
  {
    if els != [] {
      var prefix := els[..|els| - 1];
      ScanAddsOnlyNewVisible(page, view, t, ledger, prefix);
      ScanExtends(page, view, t, ledger, prefix);
      forall e | e in prefix ensures e in els {
        assert e == els[PositionOf(prefix, e)];
      }
    }
  }

  /** Proof helper: a position at which `e` occurs in `s`. */
  function PositionOf(s: seq<ElementId>, e: ElementId): (i: nat)
    requires e in s
    ensures i < |s| && s[i] == e
  {
    if s[0] == e then 0 else 1 + PositionOf(s[1..], e)
  }

  /** Every scanned element that is visible has its id in the ledger afterwards. */
  lemma {:induction false} ScanComplete(page: Page, view: Option<Rect>, t: ComponentType, ledger: seq<DataValue>, els: seq<ElementId>)
    ensures forall e :: e in els && Visible(page, view, e) ==>
      DataOf(page, e, ViewedKey(t)) in Scan(page, view, t, ledger, els).ledger
    decreases |els|
  {
    if els != [] {
      var prefix := els[..|els| - 1];
      ScanComplete(page, view, t, ledger, prefix);
      assert els == prefix + [els[|els| - 1]];
    }
  }

  /** A scan in which every visible element's id is already recorded changes
      nothing and reports nothing. */
  lemma {:induction false} ScanNothingNew(page: Page, view: Option<Rect>, t: ComponentType, ledger: seq<DataValue>, els: seq<ElementId>)
    requires forall e :: e in els && Visible(page, view, e) ==> DataOf(page, e, ViewedKey(t)) in ledger
    ensures Scan(page, view, t, ledger, els) == ScanState(ledger, [])
    decreases |els|
  {
    if els != [] {
      var prefix := els[..|els| - 1];
      forall e | e in prefix && Visible(page, view, e) ensures DataOf(page, e, ViewedKey(t)) in ledger {
        assert e in els;
      }
      ScanNothingNew(page, view, t, ledger, prefix);
    }
  }

  /** Views are reported once: scanning the same elements again with the
      ledger a scan left behind adds no id and batches no element. */
  lemma ScanIdempotent(page: Page, view: Option<Rect>, t: ComponentType, ledger: seq<DataValue>, els: seq<ElementId>)
    ensures var s := Scan(page, view, t, ledger, els);
      Scan(page, view, t, s.ledger, els) == ScanState(s.ledger, [])
  {
    var s := Scan(page, view, t, ledger, els);
    ScanComplete(page, view, t, ledger, els);
    ScanNothingNew(page, view, t, s.ledger, els);
  }

  /** The ledger holds ids, not elements: of two elements with the same
      viewed id (an empty `data-ddl-viewed-*=""` on both, say), a visible first
      one records the id and joins the batch, and the second is then taken as
      already viewed, visible or not. */
  lemma RepeatedIdSkipped(page: Page, view: Option<Rect>, t: ComponentType, ledger: seq<DataValue>,
                          el: ElementId, other: ElementId)
    requires DataOf(page, el, ViewedKey(t)) == DataOf(page, other, ViewedKey(t))
    requires DataOf(page, el, ViewedKey(t)) !in ledger && Visible(page, view, el)
    ensures Scan(page, view, t, ledger, [el]) == ScanState(ledger + [DataOf(page, el, ViewedKey(t))], [el])
    ensures Scan(page, view, t, ledger, [el, other]) == Scan(page, view, t, ledger, [el])
  {
    assert [el, other][..1] == [el];
    assert [el][..0] == [];
  }

  /** An element without the attribute reads as `undefined`, which the
      callback treats as one more id: a visible one records `undefined`.
      The lists a tick scans never hold such an element (they are
      `FindByDataAttr` of the attribute), so this is about the callback on
      a list assigned by code outside the tracker. */
  lemma MissingIdRecorded(page: Page, view: Option<Rect>, t: ComponentType, el: ElementId, other: ElementId)
    requires ViewedKey(t) !in NodeOf(page, el).data && Visible(page, view, el)
    requires ViewedKey(t) !in NodeOf(page, other).data
    ensures Scan(page, view, t, [], [el]) == ScanState([Undefined], [el])
    ensures Scan(page, view, t, [], [el, other]) == ScanState([Undefined], [el])
  {
    RepeatedIdSkipped(page, view, t, [], el, other);
  }

  /** Each type emits at most one event per tick, exactly when its batch is
      non-empty; the event has the type's shape and carries the whole batch. */
  lemma ViewedEventsBatch(page: Page, t: ComponentType, added: seq<ElementId>, rank: map<ElementId, nat>)
    requires Ranked(page, rank)
    ensures |ViewedEvents(page, t, added, rank)| == (if added == [] then 0 else 1)
    ensures forall e :: e in ViewedEvents(page, t, added, rank) ==>
      && WellShaped(e)
      && e.name == (if t == Product then "Viewed Product" else "Viewed Campaign")
      && (t == Product ==> e.payload == ListItems(ProductItems(page, added, rank)))
      && (t == Campaign ==> e.payload == Campaigns(IdsOf(page, ViewedKey(Campaign), added)))
  {
  }

  /** The event a scan emits carries one entry per id the scan added to the
      ledger, and there is an event exactly when the ledger grew. */
  lemma ViewedBatchCountsNewIds(page: Page, view: Option<Rect>, t: ComponentType, ledger: seq<DataValue>,
                                els: seq<ElementId>, rank: map<ElementId, nat>)
    requires Ranked(page, rank)
    ensures var s := Scan(page, view, t, ledger, els);
      && |ViewedEvents(page, t, s.added, rank)| == (if |s.ledger| == |ledger| then 0 else 1)
      && forall e :: e in ViewedEvents(page, t, s.added, rank) ==>
           && (t == Product ==> e.payload.ListItems? && |e.payload.listItems| == |s.ledger| - |ledger|)
           && (t == Campaign ==> e.payload.Campaigns? && |e.payload.campaigns| == |s.ledger| - |ledger|)
  {
    var s := Scan(page, view, t, ledger, els);
    ScanExtends(page, view, t, ledger, els);
    ProductItemsAt(page, s.added, rank);
    IdsOfAt(page, ViewedKey(t), s.added);
  }

  /** A click emits one record of the type's fixed shape; a product record
      carries `listId`, the nearest list name itself, exactly when that name
      is truthy. */
  lemma ClickedEventShape(page: Page, t: ComponentType, el: ElementId, rank: map<ElementId, nat>)
    requires Ranked(page, rank)
    ensures var e := ClickedEvent(page, t, el, rank);
      && WellShaped(e)
      && (t == Product ==>
            && e.name == "Clicked Product"
            && e.payload.OneListItem?
            && e.payload.listItem.productId == DataOf(page, el, ClickedKey(Product))
            && (e.payload.listItem.listId.Some? <==> Truthy(ListIdOf(page, el, rank)))
            && (e.payload.listItem.listId.Some? ==> e.payload.listItem.listId.value == ListIdOf(page, el, rank)))
      && (t == Campaign ==>
            && e.name == "Clicked Campaign"
            && e.payload == OneCampaign(DataOf(page, el, ClickedKey(Campaign))))
  {
  }

  // ----- The tracker --------------------------------------------------------

  /** `window.digitalData`: the shared list the tracker appends its events to. */
  class DigitalData {
    var events: seq<Event>

    constructor (events: seq<Event>)
      ensures this.events == events
    {
      this.events := events;
    }
  }

  class DOMComponentsTracking {
    const options: Options
    const digitalData: DigitalData

    /** `viewedComponentIds`: per type, the ids already reported as viewed. */
    var viewedComponentIds: map<ComponentType, seq<DataValue>>
    /** `$digitalDataComponents`: per type, the elements found in the last refresh. */
    var digitalDataComponents: map<ComponentType, seq<ElementId>>

    /** False until `defineDocBoundaries` first runs: the four fields below
        are then `undefined` and every comparison with them fails. */
    var boundariesDefined: bool
    var docViewTop: real
    var docViewBottom: real
    var docViewLeft: real
    var docViewRight: real

    ghost predicate Valid()
      reads this`viewedComponentIds, this`digitalDataComponents
    {
      && Product in viewedComponentIds && Campaign in viewedComponentIds
      && Product in digitalDataComponents && Campaign in digitalDataComponents
      && NoDuplicates(viewedComponentIds[Product]) && NoDuplicates(viewedComponentIds[Campaign])
    }

    /** The viewport rectangle, or `None` while it is undefined. */
    function DocView(): Option<Rect>
      reads this`boundariesDefined, this`docViewTop, this`docViewBottom, this`docViewLeft, this`docViewRight
    {
      if boundariesDefined then Some(Rect(docViewTop, docViewBottom, docViewLeft, docViewRight)) else None
    }

    constructor (options: Options, digitalData: DigitalData)
      ensures Valid()
      ensures this.options == options && this.digitalData == digitalData
      ensures viewedComponentIds == map[Product := [], Campaign := []]
      ensures digitalDataComponents == map[Product := [], Campaign := []]
      ensures DocView() == None
    {
      this.options := options;
      this.digitalData := digitalData;
      viewedComponentIds := map[Product := [], Campaign := []];
      digitalDataComponents := map[Product := [], Campaign := []];
      boundariesDefined := false;
      docViewTop, docViewBottom, docViewLeft, docViewRight := 0.0, 0.0, 0.0, 0.0;
    }

    /** `_defineDocBoundaries`, run once and again on every resize or scroll:
        the rectangle becomes `DocBoundaries` of the current window, whatever
        it was before. */
    method DefineDocBoundaries(window: Window)
      modifies this`boundariesDefined, this`docViewTop, this`docViewBottom, this`docViewLeft, this`docViewRight
      ensures DocView() == Some(DocBoundaries(window, options.maxWebsiteWidth))
    {
      docViewTop := window.scrollTop;
      docViewBottom := docViewTop + window.height;
      docViewLeft := window.scrollLeft;
      docViewRight := docViewLeft + window.width;

      var maxWebsiteWidth := options.maxWebsiteWidth;
      if maxWebsiteWidth.Some? && Truthy(Num(maxWebsiteWidth.value))
        && maxWebsiteWidth.value < docViewRight && docViewLeft == 0.0
      {
        docViewLeft := (docViewRight - maxWebsiteWidth.value) / 2.0;
        docViewRight := docViewLeft + maxWebsiteWidth.value;
      }
      boundariesDefined := true;
    }

    /** `isVisible($elem)`: the style gate, the overlap tests against the
        current rectangle, then the walk up from the element hit at the
        centre until `el`, nothing, or a child of the document is reached. */
    method IsVisible(page: Page, el: ElementId, ghost rank: map<ElementId, nat>) returns (visible: bool)
      requires Ranked(page, rank)
      ensures visible == Visible(page, DocView(), el)
    {
      var node := NodeOf(page, el);
      var box := node.box;
      if !StyleVisible(node.style) {
        return false;
      }

      var view := Rect(docViewTop, docViewBottom, docViewLeft, docViewRight);
      var fitsVertical := boundariesDefined && FitsVertical(box, view);
      var fitsHorizontal := boundariesDefined && FitsHorizontal(box, view);
      if !fitsVertical || !fitsHorizontal {
        return false;
      }

      var hit := HitElement(page, box);
      var elementFromPoint := hit;
      ghost var k: nat := 0;
      while elementFromPoint.Some? && elementFromPoint.value != el
        && NodeOf(page, elementFromPoint.value).parent != DocumentParent
        invariant elementFromPoint == Up(page, hit, k)
        invariant forall j: nat :: j < k ==> Up(page, hit, j) != Some(el)
        decreases Measure(elementFromPoint, rank)
      {
        ParentDecreases(page, rank, elementFromPoint);
        UpAdd(page, hit, k, 1);
        elementFromPoint := ParentElement(page, elementFromPoint);
        k := k + 1;
      }
      WalkStopped(page, hit, el, k);
      visible := elementFromPoint.Some? && elementFromPoint.value == el;
    }

    method FireViewedProduct(listItems: seq<ListItem>)
      modifies digitalData
      ensures digitalData.events == old(digitalData.events) + [ViewedProduct(listItems)]
    {
      digitalData.events := digitalData.events + [Event("Viewed Product", "Ecommerce", ListItems(listItems))];
    }

    method FireViewedCampaign(campaigns: seq<DataValue>)
      modifies digitalData
      ensures digitalData.events == old(digitalData.events) + [ViewedCampaign(campaigns)]
    {
      digitalData.events := digitalData.events + [Event("Viewed Campaign", "Promo", Campaigns(campaigns))];
    }

    method FireClickedProduct(productId: DataValue, listId: DataValue)
      modifies digitalData
      ensures digitalData.events == old(digitalData.events) + [ClickedProduct(productId, listId)]
    {
      var listItem := ListItem(productId, None);
      if Truthy(listId) {
        listItem := listItem.(listId := Some(listId));
      }
      digitalData.events := digitalData.events + [Event("Clicked Product", "Ecommerce", OneListItem(listItem))];
    }

    method FireClickedCampaign(campaign: DataValue)
      modifies digitalData
      ensures digitalData.events == old(digitalData.events) + [ClickedCampaign(campaign)]
    {
      digitalData.events := digitalData.events + [Event("Clicked Campaign", "Promo", OneCampaign(campaign))];
    }

    /** One run of `onClickHandler` for `el`, an element matching
        `[data-ddl-clicked-<t>]` on the click's path: exactly one record
        appended, the ledger and everything else of the tracker unchanged. */
    method OnClickHandler(t: ComponentType, page: Page, el: ElementId, ghost rank: map<ElementId, nat>)
      requires Ranked(page, rank)
      modifies digitalData
      ensures digitalData.events == old(digitalData.events) + [ClickedEvent(page, t, el, rank)]
      ensures unchanged(this)
    {
      var id := DataOf(page, el, ClickedKey(t));
      if t == Product {
        var listId := DataOfFirst(page, FindParentByDataAttr(page, el, ListNameKey, rank), ListNameKey);
        FireClickedProduct(id, listId);
      } else {
        FireClickedCampaign(id);
      }
    }

    /** `updateDigitalDataDomComponents`: re-reads, for each type, the body's
        elements carrying the viewed-id attribute. */
    method UpdateDigitalDataDomComponents(page: Page)
      requires Valid()
      modifies this`digitalDataComponents
      ensures Valid()
      ensures digitalDataComponents == map[
        Product := FindByDataAttr(page, ViewedKey(Product)),
        Campaign := FindByDataAttr(page, ViewedKey(Campaign))]
    {
      digitalDataComponents := map[
        Product := FindByDataAttr(page, ViewedKey(Product)),
        Campaign := FindByDataAttr(page, ViewedKey(Campaign))];
    }

    /** The callback `trackViews` runs on each element of type `t`: one
        `Step` of the scan, on the ledger and on the batch being built. */
    method TrackComponentView(t: ComponentType, page: Page, el: ElementId,
                              newProducts: seq<ListItem>, newCampaigns: seq<DataValue>,
                              ghost s: ScanState, ghost rank: map<ElementId, nat>)
      returns (products: seq<ListItem>, campaigns: seq<DataValue>)
      requires Product in viewedComponentIds && Campaign in viewedComponentIds && Ranked(page, rank)
      requires viewedComponentIds[t] == s.ledger
      requires Batch(page, t, s.added, rank, newProducts, newCampaigns)
      modifies this`viewedComponentIds
      ensures DocView() == old(DocView())
      ensures var s' := Step(page, DocView(), t, s, el);
        && viewedComponentIds == old(viewedComponentIds)[t := s'.ledger]
        && Batch(page, t, s'.added, rank, products, campaigns)
    {
      products, campaigns := newProducts, newCampaigns;
      var id := DataOf(page, el, ViewedKey(t));
      if id !in viewedComponentIds[t] {
        var visible := IsVisible(page, el, rank);
        if visible {
          viewedComponentIds := viewedComponentIds[t := viewedComponentIds[t] + [id]];
          assert (s.added + [el])[..|s.added|] == s.added;
          if t == Product {
            var listId := DataOfFirst(page, FindParentByDataAttr(page, el, ListNameKey, rank), ListNameKey);
            products := products + [MakeListItem(id, listId)];
          } else {
            campaigns := campaigns + [id];
          }
        }
      }
    }

    /** The end of one type's pass in `trackViews`: a non-empty batch is
        pushed as one "Viewed" event of that type. */
    method FireViewedBatch(t: ComponentType, newProducts: seq<ListItem>, newCampaigns: seq<DataValue>,
                           ghost page: Page, ghost added: seq<ElementId>, ghost rank: map<ElementId, nat>)
      requires Ranked(page, rank)
      requires Batch(page, t, added, rank, newProducts, newCampaigns)
      modifies digitalData
      ensures digitalData.events == old(digitalData.events) + ViewedEvents(page, t, added, rank)
    {
      var count := if t == Product then |newProducts| else |newCampaigns|;
      if count > 0 {
        if t == Product {
          FireViewedProduct(newProducts);
        } else {
          FireViewedCampaign(newCampaigns);
        }
      }
    }

    /** One round of the `$components.each(...)` loop of `trackViews`: after
        the callback on the `i`-th element, the ledger of `t` and the batch
        are those of `Scan` over the first `i + 1` elements. */
    method ScanNext(t: ComponentType, page: Page, components: seq<ElementId>, i: nat,
                    newProducts: seq<ListItem>, newCampaigns: seq<DataValue>,
                    ghost base: map<ComponentType, seq<DataValue>>, ghost view: Option<Rect>, ghost rank: map<ElementId, nat>)
      returns (products: seq<ListItem>, campaigns: seq<DataValue>)
      requires i < |components| && Ranked(page, rank) && t in base
      requires Product in viewedComponentIds && Campaign in viewedComponentIds && DocView() == view
      requires var s := Scan(page, view, t, base[t], components[..i]);
        && viewedComponentIds == base[t := s.ledger]
        && Batch(page, t, s.added, rank, newProducts, newCampaigns)
      modifies this`viewedComponentIds
      ensures var s := Scan(page, view, t, base[t], components[..i + 1]);
        && viewedComponentIds == base[t := s.ledger]
        && Batch(page, t, s.added, rank, products, campaigns)
    {
      ScanStep(page, view, t, base[t], components, i);
      ghost var scanned := Scan(page, view, t, base[t], components[..i]);
      ghost var next := Step(page, view, t, scanned, components[i]);
      assert base[t := scanned.ledger][t := next.ledger] == base[t := next.ledger];
      products, campaigns := TrackComponentView(t, page, components[i], newProducts, newCampaigns, scanned, rank);
    }

    /** The `$components.each(...)` loop of `trackViews` for type `t`: the
        ledger of `t` becomes what `Scan` leaves, and the batch built holds
        the records of the elements `Scan` added, in order. */
    method ScanComponents(t: ComponentType, page: Page, ghost rank: map<ElementId, nat>)
      returns (newProducts: seq<ListItem>, newCampaigns: seq<DataValue>)
      requires Product in viewedComponentIds && Campaign in viewedComponentIds && t in digitalDataComponents
      requires Ranked(page, rank)
      modifies this`viewedComponentIds
      ensures var s := Scan(page, DocView(), t, old(viewedComponentIds[t]), digitalDataComponents[t]);
        && viewedComponentIds == old(viewedComponentIds)[t := s.ledger]
        && Batch(page, t, s.added, rank, newProducts, newCampaigns)
    {
      var components := digitalDataComponents[t];
      ghost var base := viewedComponentIds;
      ghost var view := DocView();
      newProducts, newCampaigns := [], [];
      assert base[t := base[t]] == base;
      for i := 0 to |components|
        invariant DocView() == view
        invariant Product in viewedComponentIds && Campaign in viewedComponentIds
        invariant var s := Scan(page, view, t, base[t], components[..i]);
          && viewedComponentIds == base[t := s.ledger]
          && Batch(page, t, s.added, rank, newProducts, newCampaigns)
      {
        newProducts, newCampaigns := ScanNext(t, page, components, i, newProducts, newCampaigns, base, view, rank);
      }
      assert components[..|components|] == components;
    }

    /** One pass of `trackViews` over the elements of type `t`: the ledger
        of `t` becomes what `Scan` leaves, and the events are those of the
        batch. */
    method TrackViewsOf(t: ComponentType, page: Page, ghost rank: map<ElementId, nat>)
      requires Valid() && Ranked(page, rank)
      modifies this`viewedComponentIds, digitalData
      ensures Valid()
      ensures var s := Scan(page, DocView(), t, old(viewedComponentIds[t]), digitalDataComponents[t]);
        && viewedComponentIds == old(viewedComponentIds)[t := s.ledger]
        && digitalData.events == old(digitalData.events) + ViewedEvents(page, t, s.added, rank)
    {
      ghost var ledger := viewedComponentIds[t];
      var newProducts, newCampaigns := ScanComponents(t, page, rank);
      ghost var s := Scan(page, DocView(), t, ledger, digitalDataComponents[t]);
      FireViewedBatch(t, newProducts, newCampaigns, page, s.added, rank);
      ScanNoDuplicates(page, DocView(), t, ledger, digitalDataComponents[t]);
    }

    /** `trackViews`: campaigns first, then products. Each type's ledger
        becomes what its scan leaves; the campaign event, if any, is appended
        before the product event, and nothing else is appended. */
    method TrackViews(page: Page, ghost rank: map<ElementId, nat>)
      requires Valid() && Ranked(page, rank)
      modifies this`viewedComponentIds, digitalData
      ensures Valid()
      ensures var c := Scan(page, DocView(), Campaign, old(viewedComponentIds[Campaign]), digitalDataComponents[Campaign]);
        var p := Scan(page, DocView(), Product, old(viewedComponentIds[Product]), digitalDataComponents[Product]);
        && viewedComponentIds == old(viewedComponentIds)[Campaign := c.ledger][Product := p.ledger]
        && digitalData.events == old(digitalData.events)
             + ViewedEvents(page, Campaign, c.added, rank) + ViewedEvents(page, Product, p.added, rank)
    {
      TrackViewsOf(Campaign, page, rank);
      TrackViewsOf(Product, page, rank);
    }

    /** One tick of `startTracking`'s `_track`: refresh the element lists, then
        track views. */
    method Tick(page: Page, ghost rank: map<ElementId, nat>)
      requires Valid() && Ranked(page, rank)
      modifies this`viewedComponentIds, this`digitalDataComponents, digitalData
      ensures Valid()
      ensures digitalDataComponents == map[
        Product := FindByDataAttr(page, ViewedKey(Product)),
        Campaign := FindByDataAttr(page, ViewedKey(Campaign))]
      ensures var c := Scan(page, DocView(), Campaign, old(viewedComponentIds[Campaign]), digitalDataComponents[Campaign]);
        var p := Scan(page, DocView(), Product, old(viewedComponentIds[Product]), digitalDataComponents[Product]);
        && viewedComponentIds == old(viewedComponentIds)[Campaign := c.ledger][Product := p.ledger]
        && digitalData.events == old(digitalData.events)
             + ViewedEvents(page, Campaign, c.added, rank) + ViewedEvents(page, Product, p.added, rank)
    {
      UpdateDigitalDataDomComponents(page);
      TrackViews(page, rank);
    }
  }

  /** Two runs of the handler for the same element give two records: clicks are not
      deduplicated, and the viewed ledger is untouched. */
  method ClickTwice(tracker: DOMComponentsTracking, t: ComponentType, page: Page, el: ElementId, ghost rank: map<ElementId, nat>)
    requires Ranked(page, rank)
    modifies tracker.digitalData
    ensures tracker.digitalData.events ==
      old(tracker.digitalData.events) + [ClickedEvent(page, t, el, rank), ClickedEvent(page, t, el, rank)]
    ensures tracker.viewedComponentIds == old(tracker.viewedComponentIds)
  {
    tracker.OnClickHandler(t, page, el, rank);
    tracker.OnClickHandler(t, page, el, rank);
  }
}

=== FILE: values.dfy ===
/** JavaScript values as the tracker sees them: the result of jQuery's
    `.data(key)` on an element, and JavaScript's truthiness on such values. */
module Values {

  datatype Option<+T> = None | Some(value: T)

  /** A value read from a `data-*` attribute by jQuery's `.data(key)`.
      `Undefined` is what `.data` yields when the attribute is absent or the
      jQuery set is empty. Numbers carry no NaN. Two values are `===` exactly
      when they are equal here. */
  datatype DataValue =
    | Undefined
    | Null
    | Bool(b: bool)
    | Num(n: real)
    | Str(s: string)

  /** JavaScript truthiness, as used by `if (listId)` and `maxWebsiteWidth && ...`. */
  predicate Truthy(v: DataValue)
  {
    match v
    case Undefined => false
    case Null => false
    case Bool(b) => b
    case Num(n) => n != 0.0
    case Str(s) => s != ""
  }

  /** True when no value occurs twice in `s`. */
  predicate NoDuplicates<T(==)>(s: seq<T>)
  {
    forall i, j :: 0 <= i < j < |s| ==> s[i] != s[j]
  }
}
